=== FILE: README.md ===
# Story view: curation index and scroll/navigation state machine

This project models the logic core of the `wr-coll-story` element (`src/story.js`)
of replayweb.page in Dafny. The element shows a curated "story" over a web archive
collection: a header section and one section per list ("chapter"), where each list
holds curated references to captured pages with an editorial description. A side menu
highlights the current list.

The model covers four things:

- **Curation index builder** (`doLoadCurated`), in module `Curation`. It joins the
  collection's curated records against its pages by page id. The result maps each list
  id to an ordered sequence of `{url, ts, title, desc}` entries. A record whose page is
  unknown is skipped, but its list key is still created. A falsy page title falls back
  to the url. When two pages share an id, the later page wins.
- **Section walk** (the `while` loops of `onScroll`), in module `SectionWalk`. The pane
  is a sequence of sections with integer `top`/`bottom` geometry. The walk moves
  forward while the next section's top is above the reference line, and backward while
  the previous section's bottom is at or below it.
- **Navigation state machine**, in module `Navigation`. The state holds `currList`,
  `active`, `lastST`, `clickTime` and the index. Events are a menu click, a pane scroll,
  a replay click, a new collection, the `active` flag, and a Lit update cycle
  (`updated`). Lit's changed-property record is modelled explicitly as `pending`:
  assigning a reactive property a different value records it. The update cycle consumes
  the record, and assignments made inside `updated` are recorded for the next cycle.
  This is why a change of `currList` is reported to the host at most once per cycle,
  and only while `active`.
- **Scenarios**, in module `Scenarios`: concrete runs on small collections.

The outside world becomes parameters and results:

- The clock is the `now` argument.
- The rendered DOM is a `Dom` value: the pane's sections in order, plus the menu
  links' `data-list` values.
- The pane's reference line (`offsetTop`) is the `target` argument, and the pane's
  `scrollTop` is `currST`.
- `scrollIntoView`, `preventDefault` and `dispatchEvent` become entries of an effect
  log (`Effect`).

## Model

| member | source | states |
|---|---|---|
| Curation.Enrich | src/story.js:72-77 | An entry takes url and ts from the page and desc from the curated record. Its title is the page title when that is truthy (present and non-empty), otherwise the url, so a title is empty only if the url is. |
| Curation.PageTableOf | src/story.js:56-60 | The page table's keys are exactly the ids of the collection's pages, and each id maps to a page of the collection that carries that id. |
| Curation.PageTableLastWins | src/story.js:58-60 | When several pages share an id, the table holds the last of them (later assignments overwrite earlier ones). |
| Curation.Positions | src/story.js:62-70 | The selected record indices are strictly increasing, every one is selected, and every selected record appears. This is how "skipped with continue, the loop goes on" is stated. |
| Curation.AddCurated | src/story.js:62-77 | One loop iteration creates the record's list key if it is missing and never changes other keys. An existing list's old entries stay as a prefix, so entries are only appended. |
| Curation.BuildFrom | src/story.js:62-78 | Starting from an empty index, the keys are exactly the list ids named by some curated record, including lists whose every record dangles. |
| Curation.BuildIndex | src/story.js:53-78 | The rebuilt index depends only on the collection. Its keys are the list ids of the curated records. |
| Curation.BuildFromSelects | src/story.js:62-78 | For every key, the fold over the records equals the per-list reference definition `Selected`: that list's resolving records, enriched, in record order. |
| Curation.SelectedAtPositions | src/story.js:62-77 | The reference list has one entry per resolving record of the list, and entry n is built from the n-th such record. |
| Curation.BuildFromContents | src/story.js:62-78 | Entry n of a list is built from the n-th resolving record of that list. Entries follow curated-record order, and no resolving record is lost after a dangling one. |
| Curation.IndexEntryFromPage | src/story.js:56-77 | Every index entry comes from a curated record of that list whose page id belongs to a page of the collection, and it equals the join of the two. |
| Curation.DanglingListIsEmpty | src/story.js:63-70 | A list that is named by some record but whose every record dangles is present in the index with no entries. |
| Curation.MissingPageLogAsWritten | src/story.js:66-69 | As written, each dangling record logs the same line "No Page with id: undefined", one line per dangling record. |
| Curation.AsWrittenLogHidesPageId | src/story.js:66-69 | Two different missing page ids produce identical log lines. |
| Curation.MissingPageLog | src/story.js:66-69 | As intended, the n-th log line names the page id of the n-th dangling record. |
| Curation.MissingPageLogIdentifies | src/story.js:66-69 | With the intended log, equal lines mean the same missing page id. |
| SectionWalk.FindSection | src/story.js:264-268 | The lookup of `"list-" + currList` finds the first section with that anchor, and fails exactly when no section has it. |
| SectionWalk.Forward | src/story.js:274-277 | The downward walk only moves forward, and every section it steps onto has top above the line. It stops at the last section or before a successor whose top is at or below the line. |
| SectionWalk.Backward | src/story.js:278-281 | The upward walk only moves backward, and every section it steps onto has bottom at or below the line. It stops at the first section or after a predecessor whose bottom is above the line. |
| SectionWalk.ForwardIsFirstStop | src/story.js:275-277 | The downward walk lands exactly on the first stopping point: any index meeting the stop conditions is the walk's result. |
| SectionWalk.BackwardIsFirstStop | src/story.js:279-281 | The upward walk lands exactly on the first stopping point in its direction. |
| SectionWalk.ForwardReachesLine | src/story.js:271-277 | On a pane laid out top to bottom, every section after the landing starts at or below the reference line. |
| SectionWalk.BackwardReachesLine | src/story.js:271-281 | On a pane laid out top to bottom, every section before the landing ends above the reference line. |
| SectionWalk.Walk | src/story.js:270-282 | The two sibling loops terminate after at most the distance to the end of the pane. They return the first stopping point in the direction of travel, which is the functional walk's result. |
| Navigation.Init | src/story.js:14-27 | A fresh element holds the supplied collection and `active` flag. It starts on the header (list 0) with zero scroll offset and click time and an empty index. The collection and current list are still to be handled by the first update. |
| Navigation.SetCurrList | src/story.js:37 | Assigning the reactive `currList` records a change only when the value differs, and touches nothing else. |
| Navigation.ScrollToList | src/story.js:248-260 | Afterwards currList is at most the list count. An in-range value is kept, an out-of-range one becomes 0, and clickTime becomes now. The pane scrolls to the section exactly when it is found. |
| Navigation.OnClickScroll | src/story.js:240-246 | A click makes currList the clicked id when it is at most the list count, else 0, and arms the guard. It prevents the default action and records a change even when an out-of-range click lands back on the old value 0. |
| Navigation.OnScroll | src/story.js:262-299 | If the current section is missing, nothing changes, not even lastST. Otherwise lastST becomes currST. currList becomes the id of the section the walk lands on exactly when the walk moved and that section is a `list-` section; otherwise it is kept. The menu scrolls iff at least 1000 ms have passed since the click and the link exists. |
| Navigation.ScrollAdoptsCrossedSection | src/story.js:270-287 | A list adopted while scrolling is the anchor of a section past the start, in the direction of travel, on the stepping side of the line: its top above the line when scrolling down, its bottom at or below the line when scrolling up. |
| Navigation.OnReplay | src/story.js:225-238 | A replay click leaves the state unchanged, prevents the default first, and then does exactly one other thing: it dispatches the event `{url, ts, view: "replay"}`. |
| Navigation.DoLoadCurated | src/story.js:53-81 | A rebuild installs the index built from the collection alone, clamps currList and arms the guard. It records the index change, requests a pane scroll to the (clamped) current list exactly when its section is found, and dispatches nothing. |
| Navigation.Updated | src/story.js:41-51 | One update cycle consumes the recorded changes. If the collection changed, it rebuilds the index, clamps currList and arms the guard (clickTime becomes now). It then records the index change for the next cycle, and records the clamp too when currList was out of range, which is how a reset to 0 is reported. A pane scroll is requested iff a rebuild ran and the section is found. `{currList}` (the value after any clamp) is dispatched exactly once iff currList changed and the element is active. Nothing else is emitted. |
| Navigation.SetCollInfo | src/story.js:31 | Assigning a collection records it as changed, so the next update rebuilds. Nothing else in the state changes. |
| Navigation.SetActive | src/story.js:33 | Assigning `active` records a change only when the value differs. Nothing else in the state changes. |
| Navigation.ClickGuardsMenuScroll | src/story.js:250-255 | A scroll less than 1000 ms after a click never scrolls the menu. One at least 1000 ms later scrolls it to the current list when the section and the link exist. |
| Navigation.ScrollChangeIsReported | src/story.js:283-288 | A list change inferred from scrolling is reported by the next update cycle exactly once, with the new id, and only while active. |
| Navigation.RebuildIgnoresOldIndex | src/story.js:53-54 | A rebuild starts from an empty map, so the previous index has no influence on the result. |
| Navigation.RebuildIdempotent | src/story.js:53-81 | Rebuilding twice from the same collection gives the same index, the same current list and the same recorded changes. |
| Navigation.UpdatesSettle | src/story.js:41-51 | Two update cycles always drain the recorded changes. Only a collection change causes a follow-up cycle. That cycle leaves the state unchanged, but it still reports `{currList: 0}` to an active host when the rebuild clamped. |
| Navigation.InRangeSectionFound | src/story.js:181-195 | On the rendered DOM with list ids 1..n, an in-range current list is the header or an existing list, and its section is always found. |
| Navigation.HandleKeepsValid | src/story.js:240-299 | Every event keeps currList between 0 and the list count. The one exception is a newly assigned collection, which the next update cycle clamps. Clicks must be on rendered links and scrolls on the rendered pane. |
| Navigation.UpdateRestoresRange | src/story.js:41-44 | After an update cycle from a valid state, currList is between 0 and the list count. |
| Scenarios.JoinScenario | src/story.js:53-78 | Curated record (1, p1, "d") with page p1 = ("http://x", 1000, "T") builds `{1: [{"http://x", 1000, "T", "d"}]}`. |
| Scenarios.DanglingScenario | src/story.js:62-74 | A record naming a missing page is dropped, its list key is kept with no entries, and an untitled page shows its url as title. |
| Scenarios.ClickScenario | src/story.js:240-255 | With lists 1, 2, 3, clicking list 2 makes it current, scrolls the pane to it, and the next update reports `{currList: 2}`. |
| Scenarios.ScrollDownScenario | src/story.js:274-298 | Scrolling down from list 2 until list 3's top passes the line makes list 3 current, records the new offset, and scrolls the menu to list 3. |
| Scenarios.ScrollUpScenario | src/story.js:278-298 | Scrolling back up from list 3 until list 2's bottom reaches the line makes list 2 current again and scrolls the menu to list 2. |

## Behaviour worth knowing

- The clamp in `scrollToList` only compares `currList` with the number of lists
  (src/story.js:250-252). A negative id is kept, and so is an in-range id that names
  no list. The code's own comment says lists are 1-based and 0 is the header
  (src/story.js:249). If ids are not contiguous, a real list id above the list count
  is reset to 0. So "the current list is the header or an existing list" holds only
  for lists numbered 1..n. That is the condition `Navigation.OneBased` states, and
  `Navigation.HandleKeepsValid` and `Navigation.InRangeSectionFound` assume it.
- A change of the current list reaches the host through Lit's changed-property record
  (src/story.js:46-50). Suppose `currList` is already 0 and the user clicks an id above
  the list count. `onClickScroll` assigns that id, then `scrollToList` resets it to 0.
  The first assignment was recorded, so the next update still reports `{currList: 0}`.
- `onScroll` adopts the landed section's id whenever that id starts with `"list-"`
  (src/story.js:285-286). It does not check that a number follows.

## Left out

- Rendering, templates and CSS (`render`, `renderLists`, `renderCPage`, `styles`). The
  DOM they produce is a parameter; `Navigation.Rendered` states its shape.
- Markdown rendering (`marked`, `unsafeHTML`) and timestamp formatting (`getTS`,
  `toISOString`, `toLocaleString`): these are foreign library calls. The replay
  timestamp is taken as the already formatted attribute string.
- Real DOM lookups, geometry and scrolling. Sections are integers `(top, bottom)`
  with no floating point. `scrollIntoView` is an effect, and the menu lookup is
  membership in the list of rendered `data-list` values.
- Element ids as strings. `"list-" + n` is the anchor `ListAnchor(n)`, and any id
  without that prefix is `OtherAnchor`. An id with the prefix but a non-numeric
  suffix (which `Number` would turn into NaN or 0) is not represented.
- `Number(...)` coercion of the clicked link's `data-list` attribute: clicked ids are
  integers, so NaN and fractional ids are not modelled.
- JavaScript object-key quirks of `pageMap`. Page ids that name an `Object.prototype`
  member, such as `"constructor"` or `"__proto__"`, would resolve or misbehave; the
  model treats the page table as a plain map.
- Navigation.SetCollInfo: always records the collection as changed. Lit compares
  with `!==`, so assigning the very same collection object again records nothing and
  does not rebuild. The model has no object identity, so it treats every assignment as
  a new object.
- The wall clock (`new Date().getTime()`): it is the `now` parameter.
- The asynchronous scheduling of Lit update cycles. An update cycle is an explicit
  event, so the model allows more interleavings than Lit does. In Lit, several host
  property assignments made in one task can share one cycle. A click or scroll handler,
  however, never runs between an assignment and its update cycle, because the update
  runs in a microtask. So a pane still showing an earlier collection cannot occur. The
  invariant lemmas reflect this by assuming the DOM is rendered for the current
  collection.
- The element before the host supplies a collection (`collInfo` is `null`):
  `Navigation.Init` takes the collection.
- `console.log` output, except the missing-page diagnostic, which is modelled for the
  finding below.

## Findings

| source | as written | input that shows it | evidently intended | confidence | as-written member | corrected member |
|---|---|---|---|---|---|---|
| src/story.js:66-68 | The missing-page diagnostic concatenates `page`, which is the failed lookup result and so always `undefined`. | Curated records naming the missing pages "a" and "b" both log "No Page with id: undefined". | Log the requested id, `curated.page`. | high; not executed | Curation.MissingPageLogAsWritten, Curation.AsWrittenLogHidesPageId | Curation.MissingPageLog, Curation.MissingPageLogIdentifies |

=== FILE: curation.dfy ===
/**
 * The curation index builder of the story view (`doLoadCurated` in src/story.js).
 *
 * A collection holds a flat sequence of captured pages and a flat sequence of
 * curated records, each naming a list id and a page id. The builder joins the
 * two by page id and produces, per list id, the ordered sequence of enriched
 * entries `{url, ts, title, desc}`. Records whose page id is unknown are
 * skipped, and the list key they name is created all the same.
 */
module Curation {
  import opened Wrappers

  type PageId = string
  type ListId = int

  datatype Page = Page(id: PageId, url: string, ts: int, title: Option<string>)
  datatype CuratedPage = CuratedPage(list: ListId, page: PageId, desc: string)
  datatype ListInfo = ListInfo(id: ListId, title: string, desc: string)
  datatype CollInfo = CollInfo(
    title: string,
    desc: string,
    lists: seq<ListInfo>,
    pages: seq<Page>,
    curatedPages: seq<CuratedPage>)

  /** One rendered entry of a list. */
  datatype Entry = Entry(url: string, ts: int, title: string, desc: string)

  /** The lookup table from page id to page (`pageMap`). */
  type PageTable = map<PageId, Page>

  /** The curation index (`curatedPageMap`). */
  type Index = map<ListId, seq<Entry>>

  /** JavaScript truthiness of an optional string: present and non-empty. */
  predicate Truthy(s: Option<string>)
  {
    s.Some? && s.value != ""
  }

  /** Joins a curated record with its page; a falsy page title falls back to the url. */
  function Enrich(p: Page, c: CuratedPage): (e: Entry)
    ensures e.url == p.url && e.ts == p.ts && e.desc == c.desc
    ensures Truthy(p.title) ==> e.title == p.title.value
    ensures !Truthy(p.title) ==> e.title == p.url
    ensures e.title == "" ==> p.url == ""
  {
    Entry(p.url, p.ts, if Truthy(p.title) then p.title.value else p.url, c.desc)
  }

  /** Builds the page table by assigning every page under its id, in order. */
  function PageTableOf(pages: seq<Page>): (m: PageTable)
    ensures m.Keys == set p | p in pages :: p.id
    ensures forall id :: id in m ==> m[id] in pages && m[id].id == id
    decreases |pages|
  {
    if |pages| == 0 then map[]
    else
      var pre := pages[..|pages| - 1];
      var last := pages[|pages| - 1];
      assert pages == pre + [last];
      PageTableOf(pre)[last.id := last]
  }

  /** Page `i` is the last page in `pages` that carries its id. */
  ghost predicate LastOfId(pages: seq<Page>, i: int)
  {
    0 <= i < |pages| && forall k :: i < k < |pages| ==> pages[k].id != pages[i].id
  }

  /** A later page with the same id overwrites an earlier one. */
  lemma {:induction false} PageTableLastWins(pages: seq<Page>, i: int)
    requires LastOfId(pages, i)
    ensures pages[i].id in PageTableOf(pages)
    ensures PageTableOf(pages)[pages[i].id] == pages[i]
    decreases |pages|
  {
    var n := |pages|;
    var pre := pages[..n - 1];
    if i < n - 1 {
      assert LastOfId(pre, i);
      PageTableLastWins(pre, i);
    }
  }

  /** Which curated records a position query selects. */
  datatype Pick = InList(list: ListId) | MissingPage

  predicate Picked(table: PageTable, c: CuratedPage, pick: Pick)
  {
    match pick
    case InList(list) => c.list == list && c.page in table
    case MissingPage => c.page !in table
  }

  /** The indices of the curated records selected by `pick`, in increasing order. */
  function Positions(table: PageTable, cs: seq<CuratedPage>, pick: Pick): (ps: seq<nat>)
    ensures forall n :: 0 <= n < |ps| ==> ps[n] < |cs| && Picked(table, cs[ps[n]], pick)
    ensures forall n, m :: 0 <= n < m < |ps| ==> ps[n] < ps[m]
    ensures forall i :: 0 <= i < |cs| && Picked(table, cs[i], pick) ==> i in ps
    decreases |cs|
  {
    if |cs| == 0 then []
    else
      var pre := cs[..|cs| - 1];
      assert forall i :: 0 <= i < |pre| ==> pre[i] == cs[i];
      var ps := Positions(table, pre, pick);
      if Picked(table, cs[|cs| - 1], pick) then ps + [|cs| - 1] else ps
  }

  /** One step of the join: create the list key if absent, then append the entry if the page resolves. */
  function AddCurated(idx: Index, table: PageTable, c: CuratedPage): (r: Index)
    ensures r.Keys == idx.Keys + {c.list}
    ensures forall k :: k in idx ==> idx[k] <= r[k]
    ensures forall k :: k in idx && k != c.list ==> r[k] == idx[k]
  {
    var withKey := if c.list in idx then idx else idx[c.list := []];
    if c.page in table then withKey[c.list := withKey[c.list] + [Enrich(table[c.page], c)]]
    else withKey
  }

  /** The join over all curated records, starting from an empty index. */
  function BuildFrom(table: PageTable, cs: seq<CuratedPage>): (idx: Index)
    ensures idx.Keys == set c | c in cs :: c.list
    decreases |cs|
  {
    if |cs| == 0 then map[]
    else
      var pre := cs[..|cs| - 1];
      assert cs == pre + [cs[|cs| - 1]];
      AddCurated(BuildFrom(table, pre), table, cs[|cs| - 1])
  }

  /** `doLoadCurated`: the index rebuilt from the collection alone. */
  function BuildIndex(coll: CollInfo): (idx: Index)
    ensures idx.Keys == set c | c in coll.curatedPages :: c.list
  {
    BuildFrom(PageTableOf(coll.pages), coll.curatedPages)
  }

  /**
   * Reference definition of one list of the index: the resolving records of
   * `list`, enriched, in record order.
   */
  function Selected(table: PageTable, cs: seq<CuratedPage>, list: ListId): seq<Entry>
    decreases |cs|
  {
    if |cs| == 0 then []
    else
      var c := cs[|cs| - 1];
      Selected(table, cs[..|cs| - 1], list)
        + (if Picked(table, c, InList(list)) then [Enrich(table[c.page], c)] else [])
  }

  lemma {:induction false} SelectedOfAbsentList(table: PageTable, cs: seq<CuratedPage>, list: ListId)
    requires forall c :: c in cs ==> c.list != list
    ensures Selected(table, cs, list) == []
    decreases |cs|
  {
    if |cs| > 0 {
      var pre := cs[..|cs| - 1];
      assert forall c :: c in pre ==> c in cs;
      SelectedOfAbsentList(table, pre, list);
    }
  }

  lemma {:induction false} NothingSelected(table: PageTable, cs: seq<CuratedPage>, list: ListId)
    requires forall i :: 0 <= i < |cs| ==> !Picked(table, cs[i], InList(list))
    ensures Selected(table, cs, list) == []
    decreases |cs|
  {
    if |cs| > 0 {
      var pre := cs[..|cs| - 1];
      assert forall i :: 0 <= i < |pre| ==> pre[i] == cs[i];
      NothingSelected(table, pre, list);
    }
  }

  /** The join agrees with the per-list reference definition on every key it creates. */
  lemma {:induction false} BuildFromSelects(table: PageTable, cs: seq<CuratedPage>, list: ListId)
    requires list in BuildFrom(table, cs)
    ensures BuildFrom(table, cs)[list] == Selected(table, cs, list)
    decreases |cs|
  {
    var pre := cs[..|cs| - 1];
    var c := cs[|cs| - 1];
    var before := BuildFrom(table, pre);
    if list in before {
      BuildFromSelects(table, pre, list);
    } else {
      assert forall d :: d in pre ==> d.list != list;
      SelectedOfAbsentList(table, pre, list);
    }
  }

  /** The reference list, read position by position against the record indices it came from. */
  lemma {:induction false} SelectedAtPositions(table: PageTable, cs: seq<CuratedPage>, list: ListId)
    ensures var ps := Positions(table, cs, InList(list));
      && |Selected(table, cs, list)| == |ps|
      && forall n :: 0 <= n < |ps| ==>
           Selected(table, cs, list)[n] == Enrich(table[cs[ps[n]].page], cs[ps[n]])
    decreases |cs|
  {
    if |cs| > 0 {
      var k := |cs|;
      var pre := cs[..k - 1];
      var c := cs[k - 1];
      SelectedAtPositions(table, pre, list);
      var pps := Positions(table, pre, InList(list));
      var ps := Positions(table, cs, InList(list));
      var sel := Selected(table, cs, list);
      var hit := Picked(table, c, InList(list));
      assert sel == Selected(table, pre, list) + (if hit then [Enrich(table[c.page], c)] else []);
      assert ps == (if hit then pps + [k - 1] else pps);
      forall n | 0 <= n < |ps|
        ensures sel[n] == Enrich(table[cs[ps[n]].page], cs[ps[n]])
      {
        if n < |pps| {
          assert ps[n] == pps[n] && cs[pps[n]] == pre[pps[n]];
        }
      }
    }
  }

  /**
   * The entries under `list` are exactly the resolving records of that list,
   * enriched, in the order of the curated records: nothing is dropped except
   * records whose page is unknown, and a skipped record never stops the rest.
   */
  lemma BuildFromContents(table: PageTable, cs: seq<CuratedPage>, list: ListId)
    requires list in BuildFrom(table, cs)
    ensures var ps := Positions(table, cs, InList(list));
      && |BuildFrom(table, cs)[list]| == |ps|
      && forall n :: 0 <= n < |ps| ==>
           BuildFrom(table, cs)[list][n] == Enrich(table[cs[ps[n]].page], cs[ps[n]])
  {
    BuildFromSelects(table, cs, list);
    SelectedAtPositions(table, cs, list);
  }

  /** Every entry of the index comes from a curated record of that list whose page exists in the collection. */
  lemma IndexEntryFromPage(coll: CollInfo, list: ListId, n: nat)
    requires list in BuildIndex(coll)
    requires n < |BuildIndex(coll)[list]|
    ensures exists i, j ::
      && 0 <= i < |coll.curatedPages| && 0 <= j < |coll.pages|
      && coll.curatedPages[i].list == list
      && coll.pages[j].id == coll.curatedPages[i].page
      && BuildIndex(coll)[list][n] == Enrich(coll.pages[j], coll.curatedPages[i])
  {
    var table := PageTableOf(coll.pages);
    var cs := coll.curatedPages;
    BuildFromContents(table, cs, list);
    var i := Positions(table, cs, InList(list))[n];
    var p := table[cs[i].page];
    var j :| 0 <= j < |coll.pages| && coll.pages[j] == p;
  }

  /** A list whose every record dangles still gets its key, mapped to no entries. */
  lemma DanglingListIsEmpty(coll: CollInfo, list: ListId)
    requires exists c :: c in coll.curatedPages && c.list == list
    requires forall c, p :: c in coll.curatedPages && p in coll.pages && c.list == list ==> p.id != c.page
    ensures list in BuildIndex(coll)
    ensures BuildIndex(coll)[list] == []
  {
    var table := PageTableOf(coll.pages);
    var cs := coll.curatedPages;
    forall i | 0 <= i < |cs|
      ensures !Picked(table, cs[i], InList(list))
    {
      if cs[i].page in table {
        assert cs[i] in cs;
        assert table[cs[i].page] in coll.pages;
      }
    }
    BuildFromSelects(table, cs, list);
    NothingSelected(table, cs, list);
  }

  /** Prefix of the diagnostic printed for a curated record whose page is unknown. */
  const MissingPagePrefix := "No Page with id: "

  /**
   * The diagnostic lines as the source prints them: it concatenates the failed
   * lookup result, which is `undefined`, instead of the requested page id.
   */
  function MissingPageLogAsWritten(table: PageTable, cs: seq<CuratedPage>): (log: seq<string>)
    ensures |log| == |Positions(table, cs, MissingPage)|
    ensures forall n :: 0 <= n < |log| ==> log[n] == MissingPagePrefix + "undefined"
    decreases |cs|
  {
    if |cs| == 0 then []
    else
      var c := cs[|cs| - 1];
      MissingPageLogAsWritten(table, cs[..|cs| - 1])
        + (if c.page in table then [] else [MissingPagePrefix + "undefined"])
  }

  /** Two different missing page ids print the very same line, so the log cannot tell them apart. */
  lemma AsWrittenLogHidesPageId()
    ensures var cs := [CuratedPage(1, "a", ""), CuratedPage(1, "b", "")];
      var log := MissingPageLogAsWritten(map[], cs);
      |log| == 2 && cs[0].page != cs[1].page && log[0] == log[1]
  {
    var cs := [CuratedPage(1, "a", ""), CuratedPage(1, "b", "")];
    assert Positions(map[], cs, MissingPage) == [0, 1];
  }

  /** The diagnostic lines as intended: one per dangling record, naming the requested page id. */
  function MissingPageLog(table: PageTable, cs: seq<CuratedPage>): (log: seq<string>)
    ensures var ds := Positions(table, cs, MissingPage);
      |log| == |ds| && forall n :: 0 <= n < |ds| ==> log[n] == MissingPagePrefix + cs[ds[n]].page
    decreases |cs|
  {
    if |cs| == 0 then []
    else
      var c := cs[|cs| - 1];
      var pre := cs[..|cs| - 1];
      assert forall i :: 0 <= i < |pre| ==> pre[i] == cs[i];
      MissingPageLog(table, pre) + (if c.page in table then [] else [MissingPagePrefix + c.page])
  }

  /** With the intended lines, equal lines mean equal missing page ids. */
  lemma MissingPageLogIdentifies(table: PageTable, cs: seq<CuratedPage>, n: nat, m: nat)
    requires n < |MissingPageLog(table, cs)| && m < |MissingPageLog(table, cs)|
    requires MissingPageLog(table, cs)[n] == MissingPageLog(table, cs)[m]
    ensures var ds := Positions(table, cs, MissingPage);
      cs[ds[n]].page == cs[ds[m]].page && cs[ds[n]].page !in table
  {
    var ds := Positions(table, cs, MissingPage);
    var a := MissingPagePrefix + cs[ds[n]].page;
    var b := MissingPagePrefix + cs[ds[m]].page;
    assert cs[ds[n]].page == a[|MissingPagePrefix|..];
    assert cs[ds[m]].page == b[|MissingPagePrefix|..];
  }
}

=== FILE: navigation.dfy ===
/**
 * The navigation state machine of the story view (the `Story` element of
 * src/story.js): which list is current, the last scroll offset of the content
 * pane, the time of the last click-driven scroll, and whether changes are
 * reported to the host.
 *
 * The element is a Lit reactive element. Assigning a reactive property a value
 * different from its current one records the property as changed; the next
 * update cycle hands the recorded set to `updated` and clears it, and any
 * assignment made during `updated` is recorded for a further cycle. That
 * record is the `pending` field here. Side effects (scroll requests, prevented
 * default actions, dispatched events) are returned as an effect log; the clock
 * is the `now` parameter and the rendered DOM is the `dom` parameter.
 */
module Navigation {
  import opened Curation
  import opened SectionWalk

  /** Milliseconds after a click-driven scroll during which the menu is not auto-scrolled. */
  const SuppressMs := 1000

  /** The `view` field of a replay request. */
  const ReplayView := "replay"

  /** The reactive properties of the element. */
  datatype Prop = CollInfoProp | ActiveProp | CuratedPageMapProp | CurrListProp

  /** The payload of a dispatched `coll-tab-nav` event. */
  datatype NavData =
    | ListChanged(currList: int)
    | ReplayRequest(url: string, ts: string, view: string)

  datatype Effect =
    | PreventDefault
    | ScrollPaneTo(list: int)     // `scrollIntoView` on the pane section `list-<list>`
    | ScrollMenuTo(list: int)     // `scrollIntoView` on the menu link with `data-list=<list>`
    | Dispatch(data: NavData)     // a `coll-tab-nav` event to the host

  /** The rendered DOM the handlers read: the pane's sections and the menu links' `data-list` values. */
  datatype Dom = Dom(pane: seq<Section>, menu: seq<int>)

  datatype Story = Story(
    coll: CollInfo,
    index: Index,
    currList: int,
    active: bool,
    lastST: int,
    clickTime: int,
    pending: set<Prop>)

  /** The state after a handler, and what it did to the outside world. */
  datatype Step = Step(story: Story, effects: seq<Effect>)

  /** The payloads of the events in an effect log, in order. */
  function Dispatched(effects: seq<Effect>): seq<NavData>
    decreases |effects|
  {
    if |effects| == 0 then []
    else (if effects[0].Dispatch? then [effects[0].data] else []) + Dispatched(effects[1..])
  }

  lemma {:induction false} DispatchedAppend(a: seq<Effect>, b: seq<Effect>)
    ensures Dispatched(a + b) == Dispatched(a) + Dispatched(b)
    decreases |a|
  {
    if |a| > 0 {
      assert (a + b)[1..] == a[1..] + b;
      DispatchedAppend(a[1..], b);
    } else {
      assert a + b == b;
    }
  }

  /** The constructor's state, once the host has supplied the collection. */
  function Init(coll: CollInfo, active: bool): (s: Story)
    ensures s.currList == 0 && s.lastST == 0 && s.clickTime == 0 && s.index == map[]
    ensures CollInfoProp in s.pending && CurrListProp in s.pending
    ensures s.coll == coll && s.active == active
  {
    Story(coll, map[], 0, active, 0, 0, {CollInfoProp, ActiveProp, CuratedPageMapProp, CurrListProp})
  }

  /** Assigning `currList`: recorded as changed only when the value differs. */
  function SetCurrList(s: Story, v: int): (r: Story)
    ensures r.currList == v
    ensures r.(currList := s.currList, pending := s.pending) == s
    ensures CurrListProp in r.pending <==> CurrListProp in s.pending || v != s.currList
    ensures r.pending - {CurrListProp} == s.pending - {CurrListProp}
  {
    if v == s.currList then s.(currList := v)
    else s.(currList := v, pending := s.pending + {CurrListProp})
  }

  /** `scrollToList`: clamp the current list, arm the click guard, scroll its section into view. */
  function ScrollToList(s: Story, dom: Dom, now: int): (r: Step)
    ensures r.story.currList <= |s.coll.lists|
    ensures s.currList <= |s.coll.lists| ==> r.story.currList == s.currList
    ensures s.currList > |s.coll.lists| ==> r.story.currList == 0
    ensures r.story.clickTime == now
    ensures r.story.(currList := s.currList, clickTime := s.clickTime, pending := s.pending) == s
    ensures CurrListProp in r.story.pending <==> CurrListProp in s.pending || s.currList > |s.coll.lists|
    ensures r.story.pending - {CurrListProp} == s.pending - {CurrListProp}
    ensures FindSection(dom.pane, r.story.currList).Some? ==> r.effects == [ScrollPaneTo(r.story.currList)]
    ensures FindSection(dom.pane, r.story.currList).None? ==> r.effects == []
  {
    var clamped := if s.currList > |s.coll.lists| then SetCurrList(s, 0) else s;
    var armed := clamped.(clickTime := now);
    Step(armed, if FindSection(dom.pane, armed.currList).Some? then [ScrollPaneTo(armed.currList)] else [])
  }

  /** `onClickScroll`: a click on the menu link of list `clicked`. */
  function OnClickScroll(s: Story, clicked: int, dom: Dom, now: int): (r: Step)
    ensures r.story.currList == if clicked <= |s.coll.lists| then clicked else 0
    ensures r.story.clickTime == now
    ensures r.story.(currList := s.currList, clickTime := s.clickTime, pending := s.pending) == s
    ensures CurrListProp in r.story.pending <==>
              CurrListProp in s.pending || clicked != s.currList || clicked > |s.coll.lists|
    ensures r.story.pending - {CurrListProp} == s.pending - {CurrListProp}
    ensures |r.effects| >= 1 && r.effects[0] == PreventDefault
    ensures r.effects[1..] == (if FindSection(dom.pane, r.story.currList).Some? then [ScrollPaneTo(r.story.currList)] else [])
  {
    var scrolled := ScrollToList(SetCurrList(s, clicked), dom, now);
    Step(scrolled.story, [PreventDefault] + scrolled.effects)
  }

  /** `onScroll`: infer the current list from the pane's new scroll offset `currST`. */
  function OnScroll(s: Story, dom: Dom, target: int, currST: int, now: int): (r: Step)
    ensures FindSection(dom.pane, s.currList).None? ==> r == Step(s, [])
    ensures FindSection(dom.pane, s.currList).Some? ==> r.story.lastST == currST
    ensures r.story.(currList := s.currList, lastST := s.lastST, pending := s.pending) == s
    ensures r.story.pending - {CurrListProp} == s.pending - {CurrListProp}
    ensures FindSection(dom.pane, s.currList).Some? ==>
              var start := FindSection(dom.pane, s.currList).value;
              var j := Landing(dom.pane, start, target, currST > s.lastST);
              r.story.currList == if j != start && dom.pane[j].anchor.ListAnchor?
                                  then dom.pane[j].anchor.list else s.currList
    ensures r.effects == [] || r.effects == [ScrollMenuTo(r.story.currList)]
    ensures r.effects != [] <==>
              FindSection(dom.pane, s.currList).Some? && now - s.clickTime >= SuppressMs
              && r.story.currList in dom.menu
  {
    match FindSection(dom.pane, s.currList)
    case None => Step(s, [])
    case Some(start) =>
      var j := Landing(dom.pane, start, target, currST > s.lastST);
      var recorded := s.(lastST := currST);
      var landed := if j != start && dom.pane[j].anchor.ListAnchor?
                    then SetCurrList(recorded, dom.pane[j].anchor.list) else recorded;
      if now - landed.clickTime < SuppressMs then Step(landed, [])
      else Step(landed, if landed.currList in dom.menu then [ScrollMenuTo(landed.currList)] else [])
  }

  /**
   * A list adopted while scrolling is the anchor of a section past the start,
   * in the direction of travel, that has crossed the pane's reference line.
   */
  lemma ScrollAdoptsCrossedSection(s: Story, dom: Dom, target: int, currST: int, now: int)
    ensures var r := OnScroll(s, dom, target, currST, now);
      r.story.currList != s.currList ==>
        var start := FindSection(dom.pane, s.currList).value;
        exists j :: 0 <= j < |dom.pane| && dom.pane[j].anchor == ListAnchor(r.story.currList)
          && (currST > s.lastST ==> start < j && dom.pane[j].top < target)
          && (currST <= s.lastST ==> j < start && dom.pane[j].bottom >= target)
  {
  }

  /** `onReplay`: a click on a curated entry's link asks the host to replay that page. */
  function OnReplay(s: Story, url: string, ts: string): (r: Step)
    ensures r.story == s
    ensures |r.effects| >= 1 && r.effects[0] == PreventDefault
    ensures Dispatched(r.effects) == [ReplayRequest(url, ts, ReplayView)]
    ensures r.effects[1..] == [Dispatch(ReplayRequest(url, ts, ReplayView))]
  {
    var effects := [PreventDefault, Dispatch(ReplayRequest(url, ts, ReplayView))];
    assert Dispatched(effects[1..][1..]) == [];
    assert Dispatched(effects[1..]) == [ReplayRequest(url, ts, ReplayView)];
    Step(s, effects)
  }

  /** `doLoadCurated`: rebuild the index from the collection, then scroll to the (clamped) current list. */
  function DoLoadCurated(s: Story, dom: Dom, now: int): (r: Step)
    ensures r.story.index == BuildIndex(s.coll)
    ensures r.story.currList == if s.currList <= |s.coll.lists| then s.currList else 0
    ensures r.story.clickTime == now
    ensures r.story.(index := s.index, currList := s.currList, clickTime := s.clickTime, pending := s.pending) == s
    ensures r.story.pending == s.pending + {CuratedPageMapProp}
                               + (if s.currList > |s.coll.lists| then {CurrListProp} else {})
    ensures FindSection(dom.pane, r.story.currList).Some? ==> r.effects == [ScrollPaneTo(r.story.currList)]
    ensures FindSection(dom.pane, r.story.currList).None? ==> r.effects == []
    ensures Dispatched(r.effects) == []
  {
    var rebuilt := s.(index := BuildIndex(s.coll), pending := s.pending + {CuratedPageMapProp});
    var r := ScrollToList(rebuilt, dom, now);
    assert r.effects == [] || r.effects == [ScrollPaneTo(r.story.currList)];
    r
  }

  /**
   * `updated`: one Lit update cycle. The recorded changes are consumed; a new
   * collection triggers a rebuild; a changed `currList` is reported to the host
   * only while the element is active.
   */
  function Updated(s: Story, dom: Dom, now: int): (r: Step)
    ensures Dispatched(r.effects) ==
              if CurrListProp in s.pending && s.active then [ListChanged(r.story.currList)] else []
    ensures CollInfoProp in s.pending ==> r.story.index == BuildIndex(s.coll)
    ensures r.story.currList ==
              if CollInfoProp in s.pending && s.currList > |s.coll.lists| then 0 else s.currList
    ensures CollInfoProp !in s.pending ==> r.story == s.(pending := {})
    ensures CollInfoProp !in r.story.pending && ActiveProp !in r.story.pending
    ensures r.story.coll == s.coll && r.story.active == s.active && r.story.lastST == s.lastST
    ensures CollInfoProp in s.pending ==> r.story.clickTime == now
    ensures CollInfoProp in s.pending ==>
              r.story.pending == {CuratedPageMapProp} + (if s.currList > |s.coll.lists| then {CurrListProp} else {})
    ensures r.effects ==
              (if CollInfoProp in s.pending && FindSection(dom.pane, r.story.currList).Some?
               then [ScrollPaneTo(r.story.currList)] else [])
              + (if CurrListProp in s.pending && s.active then [Dispatch(ListChanged(r.story.currList))] else [])
  {
    var changed := s.pending;
    var cleared := s.(pending := {});
    var loaded := if CollInfoProp in changed then DoLoadCurated(cleared, dom, now) else Step(cleared, []);
    var note := if CurrListProp in changed && loaded.story.active
                then [Dispatch(ListChanged(loaded.story.currList))] else [];
    DispatchedAppend(loaded.effects, note);
    Step(loaded.story, loaded.effects + note)
  }

  /** The host assigns a (new) collection object. */
  function SetCollInfo(s: Story, coll: CollInfo): (r: Story)
    ensures r.coll == coll && CollInfoProp in r.pending
    ensures r.(coll := s.coll, pending := s.pending) == s
    ensures r.pending - {CollInfoProp} == s.pending - {CollInfoProp}
  {
    s.(coll := coll, pending := s.pending + {CollInfoProp})
  }

  /** The host sets the `active` flag. */
  function SetActive(s: Story, active: bool): (r: Story)
    ensures r.active == active
    ensures ActiveProp in r.pending <==> ActiveProp in s.pending || active != s.active
    ensures r.(active := s.active, pending := s.pending) == s
    ensures r.pending - {ActiveProp} == s.pending - {ActiveProp}
  {
    if active == s.active then s else s.(active := active, pending := s.pending + {ActiveProp})
  }

  /** What can happen to the element. */
  datatype Event =
    | Click(list: int)
    | Scroll(target: int, scrollTop: int)
    | ReplayClick(url: string, ts: string)
    | NewCollection(coll: CollInfo)
    | Activate(active: bool)
    | Update

  function Handle(s: Story, e: Event, dom: Dom, now: int): Step
  {
    match e
    case Click(list) => OnClickScroll(s, list, dom, now)
    case Scroll(target, st) => OnScroll(s, dom, target, st, now)
    case ReplayClick(url, ts) => OnReplay(s, url, ts)
    case NewCollection(coll) => Step(SetCollInfo(s, coll), [])
    case Activate(active) => Step(SetActive(s, active), [])
    case Update => Updated(s, dom, now)
  }

  /**
   * The click guard: a scroll event less than `SuppressMs` after a click never
   * scrolls the menu; one at least `SuppressMs` later does, when the pane
   * section is found and the menu has a link for the resulting list.
   */
  lemma ClickGuardsMenuScroll(s: Story, clicked: int, dom: Dom, clickAt: int, target: int, currST: int, now: int)
    ensures var c := OnClickScroll(s, clicked, dom, clickAt).story;
      var r := OnScroll(c, dom, target, currST, now);
      && (now - clickAt < SuppressMs ==> r.effects == [])
      && ((now - clickAt >= SuppressMs && FindSection(dom.pane, c.currList).Some? && r.story.currList in dom.menu)
          ==> r.effects == [ScrollMenuTo(r.story.currList)])
  {
  }

  /**
   * A list change inferred from scrolling is reported to the host by the next
   * update cycle, exactly once and only while the element is active.
   */
  lemma ScrollChangeIsReported(s: Story, dom: Dom, target: int, currST: int, now: int, later: int)
    requires CurrListProp !in s.pending && CollInfoProp !in s.pending
    ensures var a := OnScroll(s, dom, target, currST, now);
      Dispatched(Updated(a.story, dom, later).effects)
        == if a.story.currList != s.currList && s.active then [ListChanged(a.story.currList)] else []
  {
  }

  /** A rebuild reads only the collection: the previous index does not matter. */
  lemma RebuildIgnoresOldIndex(s: Story, stale: Index, dom: Dom, now: int)
    ensures DoLoadCurated(s.(index := stale), dom, now).story == DoLoadCurated(s, dom, now).story
  {
  }

  /** Rebuilding twice from the same collection gives the same index and the same current list. */
  lemma RebuildIdempotent(s: Story, dom: Dom, first: int, second: int)
    ensures var a := DoLoadCurated(s, dom, first).story;
      var b := DoLoadCurated(a, dom, second).story;
      b.index == a.index && b.currList == a.currList && b.pending == a.pending
  {
  }

  /** Two update cycles always drain the recorded changes. */
  lemma UpdatesSettle(s: Story, dom: Dom, first: int, second: int)
    ensures Updated(Updated(s, dom, first).story, dom, second).story.pending == {}
    ensures var a := Updated(s, dom, first).story;
      && (a.pending != {} ==> CollInfoProp in s.pending)
      && Updated(a, dom, second).story == a.(pending := {})
    ensures var a := Updated(s, dom, first).story;
      CollInfoProp in s.pending && s.currList > |s.coll.lists| && s.active ==>
        Dispatched(Updated(a, dom, second).effects) == [ListChanged(0)]
  {
  }

  /** List ids are 1, 2, ..., n, as the clamp against the list count assumes. */
  ghost predicate OneBased(coll: CollInfo)
  {
    forall i :: 0 <= i < |coll.lists| ==> coll.lists[i].id == i + 1
  }

  /** The DOM as `render` lays it out: the header section `list-0` and menu link 0, then one per list. */
  ghost predicate Rendered(dom: Dom, coll: CollInfo)
  {
    && |dom.pane| == |coll.lists| + 1
    && |dom.menu| == |coll.lists| + 1
    && dom.pane[0].anchor == ListAnchor(0)
    && dom.menu[0] == 0
    && (forall i :: 1 <= i < |dom.pane| ==> dom.pane[i].anchor == ListAnchor(coll.lists[i - 1].id))
    && (forall i :: 1 <= i < |dom.menu| ==> dom.menu[i] == coll.lists[i - 1].id)
  }

  /**
   * The state invariant: the current list is a header-or-list position,
   * except that a collection just assigned may await the update cycle that clamps.
   */
  ghost predicate Valid(s: Story)
  {
    0 <= s.currList && (s.currList <= |s.coll.lists| || CollInfoProp in s.pending)
  }

  /** An in-range current list names the header or an existing list, and its section is on the pane. */
  lemma InRangeSectionFound(s: Story, dom: Dom)
    requires OneBased(s.coll) && Rendered(dom, s.coll)
    requires 0 <= s.currList <= |s.coll.lists|
    ensures s.currList == 0 || exists i :: 0 <= i < |s.coll.lists| && s.coll.lists[i].id == s.currList
    ensures FindSection(dom.pane, s.currList).Some?
  {
    var c := s.currList;
    if c > 0 {
      assert s.coll.lists[c - 1].id == c;
    }
    assert dom.pane[c].anchor == ListAnchor(c);
  }

  /** Every event keeps the invariant, for clicks on rendered menu links and scrolls of a rendered pane. */
  lemma HandleKeepsValid(s: Story, e: Event, dom: Dom, now: int)
    requires Valid(s) && OneBased(s.coll) && Rendered(dom, s.coll)
    requires e.Click? ==> e.list in dom.menu
    ensures Valid(Handle(s, e, dom, now).story)
  {
    match e
    case Click(list) =>
      var k :| 0 <= k < |dom.menu| && dom.menu[k] == list;
      if k > 0 {
        assert s.coll.lists[k - 1].id == k;
      }
    case Scroll(target, st) =>
      var r := OnScroll(s, dom, target, st, now);
      if r.story.currList != s.currList {
        var j :| 0 <= j < |dom.pane| && dom.pane[j].anchor == ListAnchor(r.story.currList);
        if j > 0 {
          assert s.coll.lists[j - 1].id == j;
        }
      }
    case ReplayClick(_, _) =>
    case NewCollection(_) =>
    case Activate(_) =>
    case Update =>
  }

  /** After an update cycle the current list is in range again. */
  lemma UpdateRestoresRange(s: Story, dom: Dom, now: int)
    requires Valid(s)
    ensures 0 <= Updated(s, dom, now).story.currList <= |s.coll.lists|
  {
  }
}

=== FILE: scenarios.dfy ===
/** Concrete runs of the story view on small collections. */
module Scenarios {
  import opened Wrappers
  import opened Curation
  import opened SectionWalk
  import opened Navigation

  /** One curated record joined with its page. */
  lemma JoinScenario()
    ensures BuildIndex(CollInfo("", "", [], [Page("p1", "http://x", 1000, Some("T"))], [CuratedPage(1, "p1", "d")]))
      == map[1 := [Entry("http://x", 1000, "T", "d")]]
  {
    var pages := [Page("p1", "http://x", 1000, Some("T"))];
    var cs := [CuratedPage(1, "p1", "d")];
    assert PageTableOf(pages) == map["p1" := pages[0]];
    var table := PageTableOf(pages);
    assert table == map["p1" := pages[0]];
    assert cs[..0] == [];
    assert BuildFrom(table, cs) == AddCurated(map[], table, cs[0]);
    assert Enrich(pages[0], cs[0]) == Entry("http://x", 1000, "T", "d");
    assert BuildIndex(CollInfo("", "", [], pages, cs)) == BuildFrom(table, cs);
    assert table[cs[0].page] == pages[0];
    assert AddCurated(map[], table, cs[0]) == map[1 := [] + [Enrich(pages[0], cs[0])]];
    assert [] + [Enrich(pages[0], cs[0])] == [Entry("http://x", 1000, "T", "d")];
  }

  /** A record whose page is missing is dropped, its list key is kept, and an untitled page shows its url. */
  lemma DanglingScenario()
    ensures var pages := [Page("p1", "http://x", 1000, None)];
      var cs := [CuratedPage(1, "missing", "a"), CuratedPage(2, "p1", "b")];
      BuildIndex(CollInfo("", "", [], pages, cs))
        == map[1 := [], 2 := [Entry("http://x", 1000, "http://x", "b")]]
  {
    var pages := [Page("p1", "http://x", 1000, None)];
    var cs := [CuratedPage(1, "missing", "a"), CuratedPage(2, "p1", "b")];
    assert PageTableOf(pages) == map["p1" := pages[0]];
    assert cs[..1] == [cs[0]];
    assert cs[..1][..0] == [];
    var table := PageTableOf(pages);
    assert BuildFrom(table, cs[..1]) == map[1 := []];
    assert BuildFrom(table, cs) == AddCurated(map[1 := []], table, cs[1]);
    assert Enrich(pages[0], cs[1]) == Entry("http://x", 1000, "http://x", "b");
    assert BuildIndex(CollInfo("", "", [], pages, cs)) == BuildFrom(table, cs);
    assert table[cs[1].page] == pages[0];
    assert AddCurated(map[1 := []], table, cs[1]) == map[1 := [], 2 := [] + [Enrich(pages[0], cs[1])]];
    assert [] + [Enrich(pages[0], cs[1])] == [Entry("http://x", 1000, "http://x", "b")];
  }

  function ThreeLists(): CollInfo
  {
    CollInfo("Story", "", [ListInfo(1, "A", ""), ListInfo(2, "B", ""), ListInfo(3, "C", "")], [], [])
  }

  function Pane(t0: int, t1: int, t2: int, t3: int, end: int): seq<Section>
  {
    [Section(ListAnchor(0), t0, t1), Section(ListAnchor(1), t1, t2),
     Section(ListAnchor(2), t2, t3), Section(ListAnchor(3), t3, end)]
  }

  /** Clicking list 2 of three makes it current and reports `{currList: 2}` to the host. */
  lemma ClickScenario(now: int)
    ensures var dom := Dom(Pane(0, 100, 200, 300, 400), [0, 1, 2, 3]);
      var s := Story(ThreeLists(), map[], 0, true, 0, 0, {});
      var clicked := OnClickScroll(s, 2, dom, now);
      var updated := Updated(clicked.story, dom, now);
      && clicked.story.currList == 2
      && clicked.effects == [PreventDefault, ScrollPaneTo(2)]
      && Dispatched(updated.effects) == [ListChanged(2)]
  {
    var dom := Dom(Pane(0, 100, 200, 300, 400), [0, 1, 2, 3]);
    assert dom.pane[2].anchor == ListAnchor(2);
  }

  /** Scrolling down until list 3's top passes the reference line makes list 3 current and scrolls the menu. */
  lemma ScrollDownScenario()
    ensures var s := Story(ThreeLists(), map[], 2, false, 100, 0, {});
      var down := OnScroll(s, Dom(Pane(-900, -700, -400, -20, 400), [0, 1, 2, 3]), 0, 150, 5000);
      down.story.currList == 3 && down.story.lastST == 150 && down.effects == [ScrollMenuTo(3)]
  {
    var pane := Pane(-900, -700, -400, -20, 400);
    assert FindSection(pane, 2) == Some(2) by {
      assert pane[2].anchor == ListAnchor(2);
      assert pane[0].anchor != ListAnchor(2) && pane[1].anchor != ListAnchor(2);
    }
    assert Forward(pane, 2, 0) == 3;
    assert Landing(pane, 2, 0, true) == 3;
    assert pane[3].anchor == ListAnchor(3);
    var s := Story(ThreeLists(), map[], 2, false, 100, 0, {});
    var down := OnScroll(s, Dom(pane, [0, 1, 2, 3]), 0, 150, 5000);
    assert down.story.currList == 3;
  }

  /** Scrolling back up until list 2's bottom reaches the reference line makes list 2 current again. */
  lemma ScrollUpScenario()
    ensures var s := Story(ThreeLists(), map[], 3, false, 150, 0, {});
      var up := OnScroll(s, Dom(Pane(-900, -600, -300, 10, 400), [0, 1, 2, 3]), 0, 120, 6000);
      up.story.currList == 2 && up.story.lastST == 120 && up.effects == [ScrollMenuTo(2)]
  {
    var pane := Pane(-900, -600, -300, 10, 400);
    assert FindSection(pane, 3) == Some(3) by {
      assert pane[3].anchor == ListAnchor(3);
      assert pane[0].anchor != ListAnchor(3) && pane[1].anchor != ListAnchor(3);
      assert pane[2].anchor != ListAnchor(3);
    }
    assert Backward(pane, 3, 0) == 2;
    assert Landing(pane, 3, 0, false) == 2;
    assert pane[2].anchor == ListAnchor(2);
    var s := Story(ThreeLists(), map[], 3, false, 150, 0, {});
    var up := OnScroll(s, Dom(pane, [0, 1, 2, 3]), 0, 120, 6000);
    assert up.story.currList == 2;
  }
}

=== FILE: section_walk.dfy ===
/**
 * The scroll pane's sections and the sibling walk of `onScroll` in src/story.js.
 *
 * The pane's children are an ordered sequence of sections, each with an anchor
 * id and an integer geometry (`top`, `bottom`) relative to the viewport. The
 * walk starts at the section of the current list and steps to immediate
 * siblings only: forward while the next section's top is above the pane's
 * reference line, backward while the previous section's bottom is at or below it.
 */
module SectionWalk {
  import opened Wrappers

  /** A section's id attribute: `"list-" + n`, or any id that does not start with `"list-"`. */
  datatype Anchor = ListAnchor(list: int) | OtherAnchor(name: string)

  datatype Section = Section(anchor: Anchor, top: int, bottom: int)

  /** `getElementById("list-" + list)`: the first section carrying that anchor, if any. */
  function FindSection(pane: seq<Section>, list: int): (r: Option<nat>)
    ensures r.Some? ==> r.value < |pane| && pane[r.value].anchor == ListAnchor(list)
    ensures r.Some? ==> forall k :: 0 <= k < r.value ==> pane[k].anchor != ListAnchor(list)
    ensures r.None? <==> forall k :: 0 <= k < |pane| ==> pane[k].anchor != ListAnchor(list)
    decreases |pane|
  {
    if |pane| == 0 then None
    else if pane[0].anchor == ListAnchor(list) then Some(0)
    else
      match FindSection(pane[1..], list)
      case None => None
      case Some(j) => Some(j + 1)
  }

  /** The downward walk from section `i`. */
  function Forward(pane: seq<Section>, i: nat, target: int): (j: nat)
    requires i < |pane|
    ensures i <= j < |pane|
    ensures forall k :: i < k <= j ==> pane[k].top < target
    ensures j == |pane| - 1 || pane[j + 1].top >= target
    decreases |pane| - i
  {
    if i + 1 < |pane| && pane[i + 1].top < target then Forward(pane, i + 1, target) else i
  }

  /** The upward (or unchanged-offset) walk from section `i`. */
  function Backward(pane: seq<Section>, i: nat, target: int): (j: nat)
    requires i < |pane|
    ensures j <= i
    ensures forall k :: j <= k < i ==> pane[k].bottom >= target
    ensures j == 0 || pane[j - 1].bottom < target
    decreases i
  {
    if i > 0 && pane[i - 1].bottom >= target then Backward(pane, i - 1, target) else i
  }

  /** The section the walk lands on; `down` is `currST > lastST`. */
  function Landing(pane: seq<Section>, i: nat, target: int, down: bool): nat
    requires i < |pane|
  {
    if down then Forward(pane, i, target) else Backward(pane, i, target)
  }

  /** The downward walk stops at the first section whose successor is not above the line. */
  lemma ForwardIsFirstStop(pane: seq<Section>, i: nat, j: nat, target: int)
    requires i <= j < |pane|
    requires forall k :: i < k <= j ==> pane[k].top < target
    requires j == |pane| - 1 || pane[j + 1].top >= target
    ensures Forward(pane, i, target) == j
  {
  }

  /** The upward walk stops at the first section whose predecessor ends above the line. */
  lemma BackwardIsFirstStop(pane: seq<Section>, i: nat, j: nat, target: int)
    requires j <= i < |pane|
    requires forall k :: j <= k < i ==> pane[k].bottom >= target
    requires j == 0 || pane[j - 1].bottom < target
    ensures Backward(pane, i, target) == j
  {
  }

  /** Section tops (and bottoms) increase down the pane, as laid-out sections do. */
  ghost predicate LaidOut(pane: seq<Section>)
  {
    forall a, b :: 0 <= a < b < |pane| ==> pane[a].top <= pane[b].top && pane[a].bottom <= pane[b].bottom
  }

  /**
   * On a laid-out pane the downward walk lands on the last section whose top is
   * above the reference line: every later section starts at or below it.
   */
  lemma ForwardReachesLine(pane: seq<Section>, i: nat, target: int)
    requires i < |pane| && LaidOut(pane)
    ensures forall k :: Forward(pane, i, target) < k < |pane| ==> pane[k].top >= target
  {
  }

  /**
   * On a laid-out pane the upward walk lands on the first section whose bottom
   * is at or below the reference line: every earlier section ends above it.
   */
  lemma BackwardReachesLine(pane: seq<Section>, i: nat, target: int)
    requires i < |pane| && LaidOut(pane)
    ensures forall k :: 0 <= k < Backward(pane, i, target) ==> pane[k].bottom < target
  {
  }

  /** The two `while` loops of `onScroll`, walking sibling by sibling. */
  method Walk(pane: seq<Section>, start: nat, target: int, down: bool) returns (j: nat)
    requires start < |pane|
    ensures j < |pane|
    ensures down ==> start <= j && forall k :: start < k <= j ==> pane[k].top < target
    ensures down ==> j == |pane| - 1 || pane[j + 1].top >= target
    ensures !down ==> j <= start && forall k :: j <= k < start ==> pane[k].bottom >= target
    ensures !down ==> j == 0 || pane[j - 1].bottom < target
    ensures j == Landing(pane, start, target, down)
  {
    j := start;
    if down {
      while j + 1 < |pane| && pane[j + 1].top < target
        invariant start <= j < |pane|
        invariant forall k :: start < k <= j ==> pane[k].top < target
        decreases |pane| - j
      {
        j := j + 1;
      }
      ForwardIsFirstStop(pane, start, j, target);
    } else {
      while j > 0 && pane[j - 1].bottom >= target
        invariant j <= start
        invariant forall k :: j <= k < start ==> pane[k].bottom >= target
        decreases j
      {
        j := j - 1;
      }
      BackwardIsFirstStop(pane, start, j, target);
    }
  }
}

=== FILE: wrappers.dfy ===
/** Optional values: a JavaScript `undefined`/missing value is `None`. */
module Wrappers {

  datatype Option<+T> = None | Some(value: T)
}
